=== FILE: README.md ===
# Radix tree over byte strings, modelled in Dafny

This project models the compressed prefix tree (radix / Patricia trie) of
`src/radix_tree.c` and proves what its operations do to the set of strings the
tree stores.

A C node (`src/radix_tree.h:4-9`) holds a segment `key`/`len`, a first child
`link` (strings that continue past the segment) and a next sibling `next` (an
alternative at the same position). Here it is the immutable datatype
`RadixTree.Tree = Nil | Node(key, link, next)`, where `Nil` is the C null
pointer. Keys are `seq<char>` with an explicit length. Operations that mutate a
node in place in C (`node_split`, `node_join`, and the re-linking done by
`node_insert` and `node_remove`) return the updated tree instead.

Files:

- `common_prefix.dfy` (module `CommonPrefix`): `node_prefix`, as a recursive
  function and as the scanning loop, plus facts about common prefixes.
- `radix_tree.dfy` (module `RadixTree`): the node type and the operations
  `Init`, `Find`, `Split`, `Join`, `Insert` and `Remove`. It also holds the
  specification-only views:
  - `Valid`: every segment is non-empty, and siblings start with pairwise
    different characters (`Heads`).
  - `Leaves`: the stored strings. Each is the concatenation of the segments
    from the root to a node without a child, following `link` and skipping
    `next`.
  - `Stored(t, x)`: some stored string starts with `x`.
  - `Compressed`: no node has exactly one child.
- `restructure.dfy` (module `Restructure`): split and join undo each other, and
  neither changes the stored strings.
- `find_insert.dfy` (module `FindInsert`): lookup and insertion.
- `remove.dfy` (module `RemoveProperties`): removal.
- `c_string_insert.dfy` (module `CStringInsert`): `node_insert` with its
  C-string length argument exactly as written (see Findings).

Behaviour worth knowing, all of it proved:

- Lookup accepts a query that stops part-way through a segment. In a valid
  tree, `Find` succeeds exactly when the query is non-empty and is a prefix of
  a stored string. The node it returns is the one inside whose segment the
  query ends, and below it lie exactly the stored strings that start with the
  query.
- The empty query never finds anything. The empty key, however, makes `Remove`
  delete the first node, because `node_remove` tests "key used up" before "no
  overlap".
- Inserting a key that is already findable changes nothing.
- In a valid tree, inserting a key that extends a stored string makes that
  string stop being stored: inserting "ab" and then "abc" leaves only "abc".
- In a valid tree, removing a non-empty `x` deletes every stored string that
  starts with `x`, because the matched node's whole child list goes with it.
  Every other stored string survives. A node on the search path may become
  childless, and then the proper prefix of `x` it spells becomes stored:
  removing "ab" from "a" with the single child "b" leaves the node "a", and
  "a", which was not stored before, now is.
- Removal keeps a tree compressed (no node has exactly one child) by joining a
  node with its only remaining child. Insertion does not: inserting "ab" and
  then "abc" leaves "ab" with the single child "c".

## Model

| member | source | states |
|---|---|---|
| CommonPrefix.CommonPrefixLength | src/radix_tree.c:30-35 | the result k is at most both lengths, the first k characters agree, and the characters at k differ when both strings go on |
| CommonPrefix.ScanPrefix | src/radix_tree.c:31-35 | the scan of the query's first n characters against the key's first m returns that longest common prefix |
| CommonPrefix.CommonPrefixUnique | src/radix_tree.c:31-35 | those three properties determine the common prefix length uniquely |
| CommonPrefix.CommonPrefixZero | src/radix_tree.c:44-46 | for non-empty strings the common prefix is zero exactly when the first characters differ, which is when find, insert and remove move on to the next sibling |
| CommonPrefix.CommonPrefixWhole | src/radix_tree.c:47 | the query is used up (k == n) exactly when it is a prefix of the segment |
| RadixTree.Init | src/radix_tree.c:13-23 | a new node stores exactly its key, and it is valid exactly when the key is non-empty |
| RadixTree.Find | src/radix_tree.c:37-53 | a found node is a node of the tree, the query is non-empty, and some tail of the query is a prefix of the found node's segment; the empty query finds nothing |
| RadixTree.Split | src/radix_tree.c:69-78 | the truncated segment followed by the new child's segment is the old segment; the new child inherits the old child list and has no sibling; the sibling is unchanged |
| RadixTree.Join | src/radix_tree.c:81-91 | the segment becomes the concatenation of the node's and the child's segments; the node adopts the child's child list; the sibling is unchanged |
| RadixTree.Insert | src/radix_tree.c:55-67 | insertion into the empty tree stores exactly the key; otherwise the root stays, its segment possibly cut by a split; a non-empty key adds exactly its first character to the top-level heads |
| RadixTree.Remove | src/radix_tree.c:93-110 | removal never adds a first character to a sibling chain, and the empty tree stays empty |
| Restructure.JoinSplit | src/radix_tree.c:69-91 | a join right after a split restores the node |
| Restructure.SplitJoin | src/radix_tree.c:69-91 | a split at the old segment length right after a join restores the node whose child had no sibling |
| Restructure.SplitLeaves | src/radix_tree.c:69-78 | a split does not change the stored strings |
| Restructure.JoinLeaves | src/radix_tree.c:81-91 | a join of a node whose child has no sibling does not change the stored strings |
| Restructure.SplitValid | src/radix_tree.c:61-78 | a split strictly inside a segment keeps segments non-empty and siblings first-character disjoint |
| Restructure.JoinValid | src/radix_tree.c:81-91 | a join keeps the tree valid |
| FindInsert.FindStored | src/radix_tree.c:37-53 | in a valid tree, lookup succeeds if and only if the query is non-empty and a prefix of some stored string |
| FindInsert.FindSubtree | src/radix_tree.c:37-53 | in a valid tree, the node lookup returns is the one at which the query is used up: the query ends inside its segment after some part x[..j] spelled above it, and x[..j] followed by each string the node spells gives exactly the stored strings that start with the query |
| FindInsert.InsertFound | src/radix_tree.c:59-66 | inserting a key that lookup already finds returns the tree unchanged (no split, no new node) |
| FindInsert.InsertThenFind | src/radix_tree.c:55-67 | after inserting a non-empty key, lookup of that key succeeds |
| FindInsert.InsertIdempotent | src/radix_tree.c:55-67 | inserting the same non-empty key twice equals inserting it once |
| FindInsert.InsertValid | src/radix_tree.c:59-64 | inserting a non-empty key keeps the tree valid |
| FindInsert.InsertUncompressedExample | src/radix_tree.c:55-67 | inserting "ab" into the empty tree gives a compressed tree, but inserting "abc" after it leaves the node "ab" with the single child "c" |
| FindInsert.InsertLeaves | src/radix_tree.c:55-67 | in a valid tree, after inserting a non-empty key that was not findable, the stored strings are the key plus the old ones, minus any that is a proper prefix of the key |
| RemoveProperties.RemoveValid | src/radix_tree.c:93-110 | removal keeps the tree valid, for any key |
| RemoveProperties.RemoveCompressed | src/radix_tree.c:105-108 | removal of any key from a compressed tree leaves it compressed: no node ends up with exactly one child |
| RemoveProperties.RemoveJoinsExample | src/radix_tree.c:105-108 | removing "ab" from "a" with children "b" and "c" would leave "a" with the single child "c" without the join; with it the result is the single node "ac" |
| RemoveProperties.RemoveUncoversExample | src/radix_tree.c:105-108 | removing "ab" from "a" with the single child "b" leaves the childless node "a", so "a" becomes stored although it was not before |
| RemoveProperties.RemoveLeaves | src/radix_tree.c:93-110 | in a valid tree, after removing a non-empty key, no stored string starts with it, every stored string that did not start with it survives, and any newly stored string is a proper prefix of the key |
| RemoveProperties.RemoveThenFind | src/radix_tree.c:93-110 | after removing a non-empty key from a valid tree, lookup of it fails |
| RemoveProperties.RemoveMissing | src/radix_tree.c:98-109 | removing a non-empty key that lookup cannot find only joins, so the stored strings are unchanged |
| RemoveProperties.RemoveAbsentHead | src/radix_tree.c:103-104 | a key whose first character no sibling starts with passes the whole chain and changes nothing |
| RemoveProperties.RemoveIdempotent | src/radix_tree.c:93-110 | removing the same non-empty key twice from a valid tree equals removing it once |
| RemoveProperties.EmptyKey | src/radix_tree.c:98-103 | the empty query finds nothing, yet removing the empty key deletes the first node |
| CStringInsert.InsertCString | src/radix_tree.c:55-67 | the as-written insertion with a length argument equals Insert when the length is 0 (meaning the whole string) or the whole string |
| CStringInsert.InsertCStringOvershoots | src/radix_tree.c:57 | with an explicit length shorter than the string, inserting into the empty tree stores the whole string, not the requested key |
| CStringInsert.InsertCStringExample | src/radix_tree.c:57 | inserting "abc" with length 2 into the empty tree makes "abc" findable, which inserting "ab" does not |

## Left out

- `node_free`, `tree_dump` and `tree_dump_with_level` (src/radix_tree.c:25-28, 112-131): memory release and console output only.
- `tree_count`, `tree_free` and `tree_count_entries` are declared in src/radix_tree.h:18-20, but their definitions are not part of this model.
- src/main.c: a demo driver that wires nodes by hand and prints results. It has no logic of its own.
- Heap management (`calloc`, `strncpy`, `free`) and the absent allocation-failure checks. `node_remove` frees only the matched node and leaks its child list; in the value model that list is simply gone.
- The C string plumbing. In `Find` and `Remove`, the `n == 0` means `strlen(x)` convention is not modelled; the key's length is explicit. `CStringInsert.InsertCString` does model that convention for insertion.
- `node_prefix` reads `x[n]` when the scan reaches the query length. The model stops at `n` and returns `n`, which is what the C loop returns at that point in every branch.
- C strings cannot contain the NUL character, while model keys may. Nothing in the operations depends on it.
- Lengths are C `int` values, and overflow for keys longer than 2^31 - 1 characters is not modelled.
- RadixTree.Split: requires only `k <= |key|`, which keeps the copy in bounds. Its validity lemma assumes `0 < k < len`, the guard at src/radix_tree.c:61-63.
- RadixTree.Join: drops a sibling of the absorbed child. `node_remove` calls it only when there is no such sibling (src/radix_tree.c:107).
- RemoveProperties.RemoveLeaves: says only that a newly stored string is a proper prefix of the removed key. It does not say which node became a leaf.

## Findings

| source | as written | input that shows it | evidently intended | confidence | as-written member | corrected member |
|---|---|---|---|---|---|---|
| src/radix_tree.c:57 | a new node is created with `node_init(x)`, which copies `strlen(x)` characters and ignores the length `n` | `node_insert(NULL, "abc", 2)` stores "abc", so a lookup of "abc" succeeds | the new node holds the `n` requested characters ("ab") | medium (main.c always passes `n == 0`, where the two agree); not executed | CStringInsert.InsertCStringOvershoots | RadixTree.Insert |

`RadixTree.Insert` takes the key with its exact length. Its contract states that
inserting into the empty tree stores exactly the key, and
`FindInsert.InsertLeaves` states the stored strings after any insertion.

=== FILE: c_string_insert.dfy ===
/**
  `node_insert` exactly as src/radix_tree.c writes it, with the key passed as
  a C string `s` plus a length `n`. `n == 0` means "use the whole string"
  (`strlen`). When a new node is created, `node_init(x)` copies the whole
  remaining C string rather than the first `n` characters, so an explicit
  `n` shorter than the string stores more than was asked for.
 */
module CStringInsert {
  import opened CommonPrefix
  import opened RadixTree

  /** `node_insert(t, s, n)` as written. With the whole string as the key it
      coincides with `Insert`. */
  function InsertCString(t: Tree, s: Key, n: nat): (r: Tree)
    requires n <= |s|
    ensures n == 0 || n == |s| ==> r == Insert(t, s)
    decreases |s|, t
  {
    var len := if n == 0 then |s| else n;
    if t.Nil? then Init(s)
    else
      var k := CommonPrefixLength(s[..len], t.key);
      assert s[..|s|] == s;
      if k == 0 then
        t.(next := InsertCString(t.next, s, len))
      else if k < len then
        var u := if k < |t.key| then Split(t, k) else t;
        u.(link := InsertCString(u.link, s[k..], len - k))
      else t
  }

  /** With an explicit length shorter than the string, the new node stores
      the whole string, not the requested key. */
  lemma InsertCStringOvershoots(s: Key, n: nat)
    requires 0 < n < |s|
    ensures Leaves(InsertCString(Nil, s, n)) == {s}
    ensures Leaves(InsertCString(Nil, s, n)) != Leaves(Insert(Nil, s[..n]))
  {
    assert s !in {s[..n]};
  }

  /** The concrete case `node_insert(NULL, "abc", 2)`: the tree afterwards
      answers a lookup of "abc", a key that was never inserted. */
  lemma InsertCStringExample()
    ensures InsertCString(Nil, "abc", 2) == Node("abc", Nil, Nil)
    ensures Find(InsertCString(Nil, "abc", 2), "abc").Node?
    ensures Find(Insert(Nil, "ab"), "abc").Nil?
  {
    CommonPrefixSelf("abc");
    assert "abc"[..2] == "ab";
    CommonPrefixUnique("abc", "ab", 2);
  }
}

=== FILE: common_prefix.dfy ===
/**
  The longest-common-prefix primitive every tree operation is built on
  (`node_prefix` in src/radix_tree.c). Keys are C strings in the C code; here
  a key is a sequence of characters whose length is explicit.
 */
module CommonPrefix {

  /** A key, or the segment of a key stored in one tree node. */
  type Key = seq<char>

  /** Number of leading characters `x` and `y` share. The three ensures
      clauses characterise that number completely (see `CommonPrefixUnique`). */
  function CommonPrefixLength(x: Key, y: Key): (k: nat)
    ensures k <= |x| && k <= |y|
    ensures x[..k] == y[..k]
    ensures k < |x| && k < |y| ==> x[k] != y[k]
  {
    if |x| == 0 || |y| == 0 || x[0] != y[0] then 0
    else
      var k' := CommonPrefixLength(x[1..], y[1..]);
      assert x[..k' + 1] == [x[0]] + x[1..][..k'];
      assert y[..k' + 1] == [y[0]] + y[1..][..k'];
      k' + 1
  }

  /** The scan of `node_prefix`: walk both strings until the key `y[..m]` is
      exhausted or a character differs; never look past position `n` of the
      query. */
  method ScanPrefix(x: Key, n: nat, y: Key, m: nat) returns (k: nat)
    requires n <= |x| && m <= |y|
    ensures k <= n && k <= m
    ensures x[..k] == y[..k]
    ensures k < n && k < m ==> x[k] != y[k]
    ensures k == CommonPrefixLength(x[..n], y[..m])
  {
    k := 0;
    while k < n
      invariant k <= n && k <= m
      invariant x[..k] == y[..k]
    {
      if k == m || x[k] != y[k] {
        assert x[..n][..k] == x[..k] && y[..m][..k] == y[..k];
        CommonPrefixUnique(x[..n], y[..m], k);
        return;
      }
      k := k + 1;
    }
    assert x[..n][..k] == x[..k] && y[..m][..k] == y[..k];
    CommonPrefixUnique(x[..n], y[..m], k);
  }

  /** Any length with the three characterising properties is the common
      prefix length. */
  lemma CommonPrefixUnique(x: Key, y: Key, j: nat)
    requires j <= |x| && j <= |y|
    requires x[..j] == y[..j]
    requires j < |x| && j < |y| ==> x[j] != y[j]
    ensures j == CommonPrefixLength(x, y)
  {
  }

  /** A key shares all of itself with itself. */
  lemma CommonPrefixSelf(x: Key)
    ensures CommonPrefixLength(x, x) == |x|
  {
    CommonPrefixUnique(x, x, |x|);
  }

  /** The common prefix length is zero exactly when the first characters
      differ (or one side is empty). */
  lemma CommonPrefixZero(x: Key, y: Key)
    requires 0 < |x| && 0 < |y|
    ensures CommonPrefixLength(x, y) == 0 <==> x[0] != y[0]
  {
    if x[0] != y[0] {
      CommonPrefixUnique(x, y, 0);
    }
  }

  /** The query is used up (`k == |x|`) exactly when it is a prefix of `y`. */
  lemma CommonPrefixWhole(x: Key, y: Key)
    ensures CommonPrefixLength(x, y) == |x| <==> x <= y
  {
    if x <= y {
      CommonPrefixUnique(x, y, |x|);
    }
  }

  /** Truncating `y` to `j` characters caps the common prefix at `j`. */
  lemma CommonPrefixTruncate(x: Key, y: Key, j: nat)
    requires j <= |y|
    ensures CommonPrefixLength(x, y[..j]) ==
            (var k := CommonPrefixLength(x, y); if k < j then k else j)
  {
    var k := CommonPrefixLength(x, y);
    var c := if k < j then k else j;
    assert y[..j][..c] == y[..c];
    if c < |x| && c < j {
      assert y[..j][c] == y[c];
    }
    CommonPrefixUnique(x, y[..j], c);
  }

  /** Dropping a shared prefix of length `i` from both sides lowers the common
      prefix length by `i`. */
  lemma CommonPrefixDrop(x: Key, y: Key, i: nat)
    requires i <= CommonPrefixLength(x, y)
    ensures CommonPrefixLength(x[i..], y[i..]) == CommonPrefixLength(x, y) - i
  {
    var k := CommonPrefixLength(x, y);
    assert x[i..][..k - i] == x[..k][i..];
    assert y[i..][..k - i] == y[..k][i..];
    CommonPrefixUnique(x[i..], y[i..], k - i);
  }

  /** When the segment `a` is a prefix of the query, matching the query
      against `a + b` matches all of `a` and then continues into `b`. */
  lemma CommonPrefixAppend(x: Key, a: Key, b: Key)
    requires a <= x
    ensures CommonPrefixLength(x, a + b) == |a| + CommonPrefixLength(x[|a|..], b)
  {
    var j := CommonPrefixLength(x[|a|..], b);
    var k := |a| + j;
    assert x[..k] == a + x[|a|..][..j];
    assert (a + b)[..k] == a + b[..j];
    if k < |x| && k < |a + b| {
      assert x[k] == x[|a|..][j];
      assert (a + b)[k] == b[j];
    }
    CommonPrefixUnique(x, a + b, k);
  }
}

=== FILE: find_insert.dfy ===
/**
  What `node_find` and `node_insert` of src/radix_tree.c mean for the strings a
  tree stores: lookup succeeds exactly for the non-empty prefixes of stored
  strings, insertion makes its key findable, changes nothing when the key is
  already findable, and keeps the tree valid.
 */
module FindInsert {
  import opened CommonPrefix
  import opened RadixTree
  import opened Restructure

  /** The strings of `s` other than the proper prefixes of `x`. */
  ghost function Unshadowed(s: set<Key>, x: Key): set<Key>
  {
    set w | w in s && !(w < x)
  }

  /** The strings of `s` that start with `x`. */
  ghost function Extending(s: set<Key>, x: Key): set<Key>
  {
    set w | w in s && x <= w
  }

  // ---------------------------------------------------------------------------
  // Find
  // ---------------------------------------------------------------------------

  /** In a valid tree, lookup succeeds exactly when the query is non-empty and
      some stored string starts with it. */
  lemma {:induction false} FindStored(t: Tree, x: Key)
    requires Valid(t)
    ensures Find(t, x).Node? <==> 0 < |x| && Stored(t, x)
    decreases t
  {
    if t.Node? && |x| > 0 {
      var k := CommonPrefixLength(x, t.key);
      CommonPrefixZero(x, t.key);
      if k == 0 {
        FindStored(t.next, x);
        StoredPast(t, x);
      } else if k == |x| {
        CommonPrefixWhole(x, t.key);
        StoredHere(t, x);
      } else if k == |t.key| && t.link.Node? {
        FindStored(t.link, x[k..]);
        StoredDescend(t, x, k);
      } else {
        StoredMiss(t, x, k);
      }
    }
  }

  /** Nothing spelled through a node starts with a query whose first
      character differs from the node's. */
  lemma StoredPast(t: Tree, x: Key)
    requires Valid(t) && t.Node? && 0 < |x| && x[0] != t.key[0]
    ensures Stored(t, x) <==> Stored(t.next, x)
  {
    if Stored(t, x) {
      var w :| w in Leaves(t) && x <= w;
      if w in NodeLeaves(t) {
        NodeLeavesHaveKey(t, w);
      }
      assert w in Leaves(t.next);
    }
    if Stored(t.next, x) {
      var w :| w in Leaves(t.next) && x <= w;
      assert w in Leaves(t);
    }
  }

  /** A query that ends inside (or at the end of) a segment is a prefix of
      every string spelled through that node. */
  lemma StoredHere(t: Tree, x: Key)
    requires t.Node? && x <= t.key
    ensures Stored(t, x)
  {
    NodeLeavesNonEmpty(t);
    var w :| w in NodeLeaves(t);
    NodeLeavesHaveKey(t, w);
    assert x <= w && w in Leaves(t);
  }

  /** A query that runs past a segment with children is stored exactly when
      its rest is stored below. */
  lemma StoredDescend(t: Tree, x: Key, k: nat)
    requires Valid(t) && t.Node? && t.link.Node?
    requires k == |t.key| < |x| && x[..k] == t.key
    ensures Stored(t, x) <==> Stored(t.link, x[k..])
  {
    var y := x[k..];
    assert x == t.key + y;
    assert x[0] == t.key[0];
    HeadsAvoid(t.next, x);
    assert Leaves(t) == NodeLeaves(t) + Leaves(t.next);
    if Stored(t.link, y) {
      var u :| u in Leaves(t.link) && y <= u;
      assert t.key + u in NodeLeaves(t);
      assert x <= t.key + u;
    }
    if Stored(t, x) {
      var w :| w in Leaves(t) && x <= w;
      assert w in NodeLeaves(t);
      var u :| u in Leaves(t.link) && w == t.key + u;
      assert y <= u;
    }
  }

  /** A query that diverges inside a segment, or runs past a segment without
      children, is not stored. */
  lemma StoredMiss(t: Tree, x: Key, k: nat)
    requires Valid(t) && t.Node? && k == CommonPrefixLength(x, t.key)
    requires 0 < k < |x|
    requires k < |t.key| || t.link.Nil?
    ensures !Stored(t, x)
  {
    assert x[0] == t.key[0];
    if Stored(t, x) {
      var w :| w in Leaves(t) && x <= w;
      if w in Leaves(t.next) {
        LeavesStartWithHead(t.next, w);
      } else {
        assert w in NodeLeaves(t);
        NodeLeavesHaveKey(t, w);
      }
    }
  }

  /** The node lookup returns in a valid tree: the query ends inside its
      segment, after a part `x[..j]` spelled by the nodes above it, and the
      strings it spells, with that part put in front, are exactly the stored
      strings that start with the query. */
  lemma {:induction false} FindSubtree(t: Tree, x: Key)
    requires Valid(t) && Find(t, x).Node?
    ensures
      var r := Find(t, x);
      exists j :: 0 <= j < |x| && x[j..] <= r.key
        && Prepend(x[..j], NodeLeaves(r)) == Extending(Leaves(t), x)
    decreases t
  {
    var k := CommonPrefixLength(x, t.key);
    CommonPrefixZero(x, t.key);
    if k == 0 {
      FindSubtree(t.next, x);
      SubtreePast(t, x);
    } else if k == |x| {
      CommonPrefixWhole(x, t.key);
      SubtreeHere(t, x);
      assert x[0..] == x && x[..0] == [];
    } else {
      var y := x[k..];
      FindSubtree(t.link, y);
      var r := Find(t.link, y);
      assert Find(t, x) == r;
      var j :| 0 <= j < |y| && y[j..] <= r.key
        && Prepend(y[..j], NodeLeaves(r)) == Extending(Leaves(t.link), y);
      SubtreeDescend(t, x, k, j, NodeLeaves(r));
      assert x[k + j..] == y[j..];
    }
  }

  /** The no-overlap step of `FindSubtree`: the head node spells nothing
      that starts with the query. */
  lemma SubtreePast(t: Tree, x: Key)
    requires t.Node? && 0 < |t.key| && 0 < |x| && x[0] != t.key[0]
    ensures Extending(Leaves(t), x) == Extending(Leaves(t.next), x)
  {
    assert Leaves(t) == NodeLeaves(t) + Leaves(t.next);
    forall w | w in NodeLeaves(t)
      ensures !(x <= w)
    {
      NodeLeavesHaveKey(t, w);
      assert w[0] == t.key[0];
    }
  }

  /** The used-up step of `FindSubtree`: the stored strings that start with a
      prefix of the head segment are exactly those the head node spells. */
  lemma SubtreeHere(t: Tree, x: Key)
    requires Valid(t) && t.Node? && 0 < |x| && x <= t.key
    ensures Prepend([], NodeLeaves(t)) == Extending(Leaves(t), x)
  {
    assert x[0] == t.key[0];
    HeadsAvoid(t.next, x);
    assert Leaves(t) == NodeLeaves(t) + Leaves(t.next);
    forall w | w in NodeLeaves(t)
      ensures x <= w && [] + w == w
    {
      NodeLeavesHaveKey(t, w);
    }
  }

  /** The descent step of `FindSubtree`: the part spelled above the found
      node grows by the head segment. `spelled` is what the found node spells. */
  lemma SubtreeDescend(t: Tree, x: Key, k: nat, j: nat, spelled: set<Key>)
    requires Valid(t) && t.Node? && k == CommonPrefixLength(x, t.key)
    requires 0 < k == |t.key| < |x| && t.link.Node? && j < |x| - k
    requires Prepend(x[k..][..j], spelled) == Extending(Leaves(t.link), x[k..])
    ensures Prepend(x[..k + j], spelled) == Extending(Leaves(t), x)
  {
    var y := x[k..];
    assert x == t.key + y;
    assert x[..k + j] == t.key + y[..j];
    PrependPrepend(t.key, y[..j], spelled);
    assert x[0] == t.key[0];
    HeadsAvoid(t.next, x);
    assert Leaves(t) == Prepend(t.key, Leaves(t.link)) + Leaves(t.next);
    ExtendingPrepend(t.key, y, Leaves(t.link), Leaves(t.next));
  }

  /** Set form of the descent step: the strings starting with `key + y` are
      the ones below `key` whose rest starts with `y`. */
  lemma ExtendingPrepend(key: Key, y: Key, below: set<Key>, others: set<Key>)
    requires forall w :: w in others ==> !(key + y <= w)
    ensures Extending(Prepend(key, below) + others, key + y)
         == Prepend(key, Extending(below, y))
  {
    var x := key + y;
    forall w | w in Extending(Prepend(key, below) + others, x)
      ensures w in Prepend(key, Extending(below, y))
    {
      var u :| u in below && w == key + u;
      PrefixCancel(key, y, u);
      assert u in Extending(below, y);
    }
    forall w | w in Prepend(key, Extending(below, y))
      ensures w in Extending(Prepend(key, below) + others, x)
    {
      var u :| u in Extending(below, y) && w == key + u;
      PrefixCancel(key, y, u);
    }
  }

  // ---------------------------------------------------------------------------
  // Insert
  // ---------------------------------------------------------------------------

  /** Inserting a key that is already findable changes nothing: no split and
      no new node. */
  lemma {:induction false} InsertFound(t: Tree, x: Key)
    requires Find(t, x).Node?
    ensures Insert(t, x) == t
    decreases t
  {
    var k := CommonPrefixLength(x, t.key);
    if k == 0 {
      InsertFound(t.next, x);
    } else if k < |x| {
      InsertFound(t.link, x[k..]);
    }
  }

  /** A non-empty key is findable right after it is inserted. */
  lemma {:induction false} InsertThenFind(t: Tree, x: Key)
    requires 0 < |x|
    ensures Find(Insert(t, x), x).Node?
    decreases |x|, t
  {
    if t.Nil? {
      CommonPrefixSelf(x);
    } else {
      var k := CommonPrefixLength(x, t.key);
      if k == 0 {
        InsertThenFind(t.next, x);
      } else if k < |x| {
        var s := if k < |t.key| then Split(t, k) else t;
        CommonPrefixTruncate(x, t.key, k);
        assert CommonPrefixLength(x, s.key) == k;
        InsertThenFind(s.link, x[k..]);
      }
    }
  }

  /** Inserting the same key twice is the same as inserting it once. */
  lemma InsertIdempotent(t: Tree, x: Key)
    requires 0 < |x|
    ensures Insert(Insert(t, x), x) == Insert(t, x)
  {
    InsertThenFind(t, x);
    InsertFound(Insert(t, x), x);
  }

  /** Insertion of a non-empty key keeps the tree valid: it appends to a
      sibling chain only past siblings with a different first character, and
      splits only strictly inside a segment. */
  lemma {:induction false} InsertValid(t: Tree, x: Key)
    requires Valid(t) && 0 < |x|
    ensures Valid(Insert(t, x))
    decreases |x|, t
  {
    if t.Node? {
      var k := CommonPrefixLength(x, t.key);
      CommonPrefixZero(x, t.key);
      if k == 0 {
        InsertValid(t.next, x);
      } else if k < |x| {
        if k < |t.key| {
          SplitValid(t, k);
        }
        var s := if k < |t.key| then Split(t, k) else t;
        InsertValid(s.link, x[k..]);
      }
    }
  }

  /** The strings stored after inserting a non-empty key that was not
      findable: the key itself, plus every string stored before except a
      proper prefix of the key (a leaf the key extends stops being a leaf). */
  lemma {:induction false} InsertLeaves(t: Tree, x: Key)
    requires Valid(t) && 0 < |x| && Find(t, x).Nil?
    ensures Leaves(Insert(t, x)) == Unshadowed(Leaves(t), x) + {x}
    decreases |x|, t
  {
    if t.Node? {
      var k := CommonPrefixLength(x, t.key);
      CommonPrefixZero(x, t.key);
      if k == 0 {
        InsertLeaves(t.next, x);
        InsertLeavesPast(t, x);
      } else {
        assert k < |x|;
        assert x[0] == t.key[0];
        HeadsAvoid(t.next, x);
        assert Leaves(t) == NodeLeaves(t) + Leaves(t.next);
        if k < |t.key| {
          InsertLeavesSplit(t, x, k);
        } else if t.link.Nil? {
          InsertLeavesExtend(t, x, k);
        } else {
          InsertLeaves(t.link, x[k..]);
          InsertLeavesDescend(t, x, k);
        }
      }
    }
  }

  /** The no-overlap step: insertion continues in the sibling chain. */
  lemma InsertLeavesPast(t: Tree, x: Key)
    requires Valid(t) && t.Node? && 0 < |x| && x[0] != t.key[0]
    requires Leaves(Insert(t.next, x)) == Unshadowed(Leaves(t.next), x) + {x}
    ensures Leaves(Insert(t, x)) == Unshadowed(Leaves(t), x) + {x}
  {
    CommonPrefixZero(x, t.key);
    forall w | w in NodeLeaves(t)
      ensures !(w < x)
    {
      NodeLeavesHaveKey(t, w);
    }
    assert Leaves(Insert(t, x)) == NodeLeaves(t) + Leaves(Insert(t.next, x));
  }

  /** The divergence step: the segment is split and the rest of the key
      becomes a sibling of the split-off suffix. */
  lemma InsertLeavesSplit(t: Tree, x: Key, k: nat)
    requires Valid(t) && t.Node? && k == CommonPrefixLength(x, t.key)
    requires 0 < k < |x| && k < |t.key|
    requires forall w :: w in Leaves(t.next) ==> !(w < x)
    ensures Leaves(Insert(t, x)) == Unshadowed(Leaves(t), x) + {x}
  {
    var r := Insert(t, x);
    var y := x[k..];
    assert x == x[..k] + y;
    var s := Split(t, k);
    var p := s.link;
    CommonPrefixDrop(x, t.key, k);
    assert CommonPrefixLength(y, p.key) == 0;
    var p' := Insert(p, y);
    assert p.next == Nil && Insert(Nil, y) == Init(y);
    assert p' == p.(next := Init(y));
    assert Leaves(p') == Leaves(p) + {y};
    PrependUnion(s.key, Leaves(p), {y});
    assert Prepend(s.key, {y}) == {x};
    SplitLeaves(t, k);
    assert Leaves(r) == Leaves(t) + {x};
    forall w | w in NodeLeaves(t)
      ensures !(w < x)
    {
      NodeLeavesHaveKey(t, w);
    }
  }

  /** The key runs past a node without a child: the key becomes that node's
      only child, and the node stops spelling a stored string of its own. */
  lemma InsertLeavesExtend(t: Tree, x: Key, k: nat)
    requires Valid(t) && t.Node? && t.link.Nil? && k == CommonPrefixLength(x, t.key)
    requires 0 < k == |t.key| < |x|
    requires forall w :: w in Leaves(t.next) ==> !(w < x)
    ensures Leaves(Insert(t, x)) == Unshadowed(Leaves(t), x) + {x}
  {
    var r := Insert(t, x);
    var y := x[k..];
    assert x == x[..k] + y;
    assert t.key == x[..k];
    assert Leaves(Init(y)) == {y};
    assert Prepend(t.key, {y}) == {x};
    assert Leaves(r) == {x} + Leaves(t.next);
    assert Leaves(t) == {t.key} + Leaves(t.next);
  }

  /** The key runs past a node with a child: insertion continues below. */
  lemma InsertLeavesDescend(t: Tree, x: Key, k: nat)
    requires Valid(t) && t.Node? && t.link.Node? && k == CommonPrefixLength(x, t.key)
    requires 0 < k == |t.key| < |x|
    requires forall w :: w in Leaves(t.next) ==> !(w < x)
    requires Leaves(Insert(t.link, x[k..])) == Unshadowed(Leaves(t.link), x[k..]) + {x[k..]}
    ensures Leaves(Insert(t, x)) == Unshadowed(Leaves(t), x) + {x}
  {
    var y := x[k..];
    assert x == t.key + y;
    var l' := Insert(t.link, y);
    assert Insert(t, x) == t.(link := l');
    assert Leaves(Insert(t, x)) == Prepend(t.key, Leaves(l')) + Leaves(t.next);
    assert Leaves(t) == Prepend(t.key, Leaves(t.link)) + Leaves(t.next);
    PrependInsertion(t.key, y, Leaves(t.link), Leaves(t.next));
  }

  /** Set form of the descent step: inserting the rest of the key below a
      segment inserts the whole key above it. */
  lemma PrependInsertion(key: Key, y: Key, below: set<Key>, others: set<Key>)
    requires forall w :: w in others ==> !(w < key + y)
    ensures Prepend(key, Unshadowed(below, y) + {y}) + others
         == Unshadowed(Prepend(key, below) + others, key + y) + {key + y}
  {
    var x := key + y;
    var lhs := Prepend(key, Unshadowed(below, y) + {y}) + others;
    var rhs := Unshadowed(Prepend(key, below) + others, x) + {x};
    forall w | w in lhs
      ensures w in rhs
    {
      if w !in others && w != x {
        var u :| u in Unshadowed(below, y) + {y} && w == key + u;
        PrefixCancel(key, u, y);
        assert u != y;
        assert key + u in Prepend(key, below);
      }
    }
    forall w | w in rhs
      ensures w in lhs
    {
      if w !in others && w != x {
        var u :| u in below && w == key + u;
        PrefixCancel(key, u, y);
        assert u in Unshadowed(below, y);
      }
    }
  }

  /** Insertion does not keep a tree compressed: inserting "abc" after "ab"
      hangs a single child "c" under the leaf "ab". */
  lemma InsertUncompressedExample()
    ensures Compressed(Insert(Nil, "ab"))
    ensures Insert(Insert(Nil, "ab"), "abc") == Node("ab", Node("c", Nil, Nil), Nil)
    ensures !Compressed(Insert(Insert(Nil, "ab"), "abc"))
  {
    assert "abc"[..2] == "ab" && "abc"[2..] == "c";
    CommonPrefixSelf("ab");
    CommonPrefixUnique("abc", "ab", 2);
  }
}

=== FILE: radix_tree.dfy ===
/**
  The compressed prefix tree of src/radix_tree.c as an immutable value.

  A C `node_t*` is a `Tree`: `Nil` stands for NULL, and `Node(key, link, next)`
  for a heap node whose segment is `key`, whose first child is `link` (keys that
  continue past this segment) and whose next sibling is `next` (an alternative
  at the same position). Operations that mutate a node in place in C return the
  updated value here.
 */
module RadixTree {
  import opened CommonPrefix

  datatype Tree = Nil | Node(key: Key, link: Tree, next: Tree)

  // ---------------------------------------------------------------------------
  // Abstract views of a tree (used only in specifications)
  // ---------------------------------------------------------------------------

  /** First characters of the segments in the sibling chain starting at `t`. */
  ghost function Heads(t: Tree): set<char>
    decreases t
  {
    match t
    case Nil => {}
    case Node(key, _, next) => (if |key| > 0 then {key[0]} else {}) + Heads(next)
  }

  /** The shape the operations maintain: every segment is non-empty and no two
      siblings of a chain start with the same character. */
  ghost predicate Valid(t: Tree)
    decreases t
  {
    match t
    case Nil => true
    case Node(key, link, next) =>
      && |key| > 0
      && key[0] !in Heads(next)
      && Valid(link)
      && Valid(next)
  }

  /** No node has exactly one child: a child list is empty or holds at least
      two siblings. `node_remove` restores this on its way back by joining a
      node with its only child; `node_insert` does not keep it. */
  ghost predicate Compressed(t: Tree)
    decreases t
  {
    match t
    case Nil => true
    case Node(_, link, next) =>
      && (link.Nil? || link.next.Node?)
      && Compressed(link)
      && Compressed(next)
  }

  /** `key` put in front of every string of `s`. */
  ghost function Prepend(key: Key, s: set<Key>): set<Key>
  {
    set u | u in s :: key + u
  }

  /** The strings spelled from the head node `t` (not its siblings) down to a
      node without a child. */
  ghost function NodeLeaves(t: Tree): set<Key>
    requires t.Node?
    decreases t, 0
  {
    if t.link.Nil? then {t.key} else Prepend(t.key, Leaves(t.link))
  }

  /** The strings the tree stores: for every node without a child, the
      concatenation of the segments on the path to it, following `link` and
      skipping `next`. */
  ghost function Leaves(t: Tree): set<Key>
    decreases t, 1
  {
    match t
    case Nil => {}
    case Node(_, _, next) => NodeLeaves(t) + Leaves(next)
  }

  /** Some stored string starts with `x`. */
  ghost predicate Stored(t: Tree, x: Key)
  {
    exists w :: w in Leaves(t) && x <= w
  }

  /** Every node handle reachable from `t`. */
  ghost function Subtrees(t: Tree): set<Tree>
    decreases t
  {
    match t
    case Nil => {}
    case Node(_, link, next) => {t} + Subtrees(link) + Subtrees(next)
  }

  // ---------------------------------------------------------------------------
  // Operations
  // ---------------------------------------------------------------------------

  /** `node_init`: a fresh node holding `key`, with no child and no sibling. */
  function Init(key: Key): (r: Tree)
    ensures r.Node? && Leaves(r) == {key}
    ensures Valid(r) <==> |key| > 0
  {
    Node(key, Nil, Nil)
  }

  /** `node_find`: the first node on the search path at which the query is
      used up, possibly part-way through that node's segment; `Nil` when the
      query leaves the tree. */
  function Find(t: Tree, x: Key): (r: Tree)
    ensures r.Node? ==> r in Subtrees(t)
    ensures r.Node? ==> 0 < |x| && exists j :: 0 <= j < |x| && x[j..] <= r.key
    ensures |x| == 0 ==> r == Nil
    decreases t
  {
    if t.Nil? then Nil
    else
      var k := CommonPrefixLength(x, t.key);
      if k == 0 then Find(t.next, x)
      else if k == |x| then
        CommonPrefixWhole(x, t.key);
        assert x[0..] <= t.key;
        t
      else if k == |t.key| then
        var r := Find(t.link, x[k..]);
        if r.Node? then
          var j :| 0 <= j < |x[k..]| && x[k..][j..] <= r.key;
          assert x[k + j..] == x[k..][j..];
          r
        else r
      else Nil
  }

  /** `node_split`: cut the segment of `t` after `k` characters; the rest
      becomes the only child, which inherits the old child list. */
  function Split(t: Tree, k: nat): (r: Tree)
    requires t.Node? && k <= |t.key|
    ensures r.Node? && r.link.Node?
    ensures r.key + r.link.key == t.key && |r.key| == k
    ensures r.link.link == t.link && r.link.next == Nil && r.next == t.next
  {
    Node(t.key[..k], Node(t.key[k..], t.link, Nil), t.next)
  }

  /** `node_join`: merge the first child into `t`. A sibling of that child is
      dropped (`node_remove` in src/radix_tree.c joins only when there is
      none). */
  function Join(t: Tree): (r: Tree)
    requires t.Node? && t.link.Node?
    ensures r.Node? && r.key == t.key + t.link.key
    ensures r.link == t.link.link && r.next == t.next
  {
    Node(t.key + t.link.key, t.link.link, t.next)
  }

  /** `node_insert`: walk as `Find` does, append a fresh node at the end of a
      sibling chain where nothing overlaps, and split a segment where the key
      diverges inside it. A key that is already a prefix of a stored string
      leaves the tree unchanged. */
  function Insert(t: Tree, x: Key): (r: Tree)
    ensures r.Node?
    ensures t.Nil? ==> Leaves(r) == {x}
    ensures t.Node? ==> r.key <= t.key
    ensures |x| > 0 ==> Heads(r) == Heads(t) + {x[0]}
    decreases |x|, t
  {
    if t.Nil? then Init(x)
    else
      var k := CommonPrefixLength(x, t.key);
      if k == 0 then
        t.(next := Insert(t.next, x))
      else if k < |x| then
        var s := if k < |t.key| then Split(t, k) else t;
        s.(link := Insert(s.link, x[k..]))
      else t
  }

  /** `node_remove`: the first node on the search path at which the key is
      used up is replaced by its next sibling, which drops its whole child
      list; on the way back a node left with a single child is joined with it.
      Because the used-up test comes before the no-overlap test, an empty key
      removes the first node of the chain. */
  function Remove(t: Tree, x: Key): (r: Tree)
    ensures Heads(r) <= Heads(t)
    ensures t.Nil? ==> r == Nil
    decreases t
  {
    if t.Nil? then Nil
    else
      var k := CommonPrefixLength(x, t.key);
      if k == |x| then t.next
      else if k == 0 then t.(next := Remove(t.next, x))
      else if k == |t.key| then
        var l := Remove(t.link, x[k..]);
        var s := t.(link := l);
        if l.Node? && l.next.Nil? then Join(s) else s
      else t
  }
}

=== FILE: remove.dfy ===
/**
  What `node_remove` of src/radix_tree.c does to the strings a tree stores.
  Removing `x` drops every stored string that starts with `x` (the matched
  node goes together with its whole child list), keeps every other one, and
  may turn a node on the search path into a new leaf whose string is a proper
  prefix of `x`. A key that cannot be found only triggers joins; a second
  removal of the same key changes nothing.
 */
module RemoveProperties {
  import opened CommonPrefix
  import opened RadixTree
  import opened Restructure
  import opened FindInsert

  /** Removal keeps the tree valid (for any key, even the empty one). */
  lemma {:induction false} RemoveValid(t: Tree, x: Key)
    requires Valid(t)
    ensures Valid(Remove(t, x))
    decreases t
  {
    if t.Node? {
      var k := CommonPrefixLength(x, t.key);
      if k != |x| && k != 0 && k == |t.key| {
        RemoveValid(t.link, x[k..]);
        var l := Remove(t.link, x[k..]);
        if l.Node? && l.next.Nil? {
          JoinValid(t.(link := l));
        }
      } else if k != |x| && k == 0 {
        RemoveValid(t.next, x);
      }
    }
  }

  /** Removal keeps a tree compressed, for any key: a node whose child list
      shrinks to a single child without siblings is joined with that child on
      the way back. */
  lemma {:induction false} RemoveCompressed(t: Tree, x: Key)
    requires Compressed(t)
    ensures Compressed(Remove(t, x))
    decreases t
  {
    if t.Node? {
      var k := CommonPrefixLength(x, t.key);
      if k != |x| && k == 0 {
        RemoveCompressed(t.next, x);
      } else if k != |x| && k == |t.key| {
        RemoveCompressed(t.link, x[k..]);
      }
    }
  }

  /** Without the join, removal would leave a node with a single child:
      removing "b" from "a" with children "b" and "c" leaves "a" with only
      "c", and the join turns that into the single node "ac". */
  lemma RemoveJoinsExample()
    ensures
      var t := Node("a", Node("b", Nil, Node("c", Nil, Nil)), Nil);
      && Compressed(t)
      && !Compressed(t.(link := Remove(t.link, "b")))
      && Remove(t, "ab") == Node("ac", Nil, Nil)
  {
    CommonPrefixSelf("b");
    CommonPrefixSelf("a");
    CommonPrefixZero("c", "b");
    CommonPrefixZero("b", "c");
    assert "ab"[..1] == "a" && "ab"[1..] == "b";
    CommonPrefixAppend("ab", "a", "b");
    CommonPrefixZero("ab", "a");
  }

  /** A node on the search path can become a leaf: removing "ab" from "a"
      with the single child "b" leaves "a" without a child, so "a", a proper
      prefix of the key that was not stored before, now is. */
  lemma RemoveUncoversExample()
    ensures
      var t := Node("a", Node("b", Nil, Nil), Nil);
      && Valid(t)
      && Leaves(t) == {"ab"}
      && Remove(t, "ab") == Node("a", Nil, Nil)
      && Leaves(Remove(t, "ab")) == {"a"}
  {
    CommonPrefixSelf("b");
    assert "ab"[..1] == "a" && "ab"[1..] == "b";
    CommonPrefixAppend("ab", "a", "b");
    CommonPrefixZero("ab", "a");
    assert "a" + "b" == "ab";
    assert Prepend("a", {"b"}) == {"ab"};
  }

  /** The stored strings after removing a non-empty key `x`: none starts
      with `x`; every string that does not start with `x` survives; and a
      string that was not stored before is a proper prefix of `x`. */
  lemma {:induction false} RemoveLeaves(t: Tree, x: Key)
    requires Valid(t) && 0 < |x|
    ensures forall w :: w in Leaves(Remove(t, x)) ==> !(x <= w)
    ensures forall w :: w in Leaves(t) && !(x <= w) ==> w in Leaves(Remove(t, x))
    ensures forall w :: w in Leaves(Remove(t, x)) && w !in Leaves(t) ==> w < x
    decreases t
  {
    if t.Node? {
      var k := CommonPrefixLength(x, t.key);
      CommonPrefixZero(x, t.key);
      assert Leaves(t) == NodeLeaves(t) + Leaves(t.next);
      if k == |x| {
        RemoveLeavesMatched(t, x);
      } else if k == 0 {
        RemoveLeaves(t.next, x);
        forall w | w in NodeLeaves(t)
          ensures !(x <= w)
        {
          NodeLeavesHaveKey(t, w);
        }
        assert Leaves(Remove(t, x)) == NodeLeaves(t) + Leaves(Remove(t.next, x));
      } else if k == |t.key| {
        assert x[0] == t.key[0];
        HeadsAvoid(t.next, x);
        if t.link.Node? {
          RemoveLeaves(t.link, x[k..]);
          RemoveLeavesDescend(t, x, k);
        } else {
          assert Remove(t, x) == t;
          assert NodeLeaves(t) == {t.key};
        }
      } else {
        assert x[0] == t.key[0];
        HeadsAvoid(t.next, x);
        forall w | w in NodeLeaves(t)
          ensures !(x <= w)
        {
          NodeLeavesHaveKey(t, w);
          assert w[k] == t.key[k];
        }
      }
    }
  }

  /** The key is used up in the head segment: the head and everything below
      it disappear, and the siblings are untouched. */
  lemma RemoveLeavesMatched(t: Tree, x: Key)
    requires Valid(t) && t.Node? && 0 < |x| && CommonPrefixLength(x, t.key) == |x|
    ensures forall w :: w in Leaves(Remove(t, x)) ==> !(x <= w)
    ensures forall w :: w in Leaves(t) && !(x <= w) ==> w in Leaves(Remove(t, x))
    ensures forall w :: w in Leaves(Remove(t, x)) && w !in Leaves(t) ==> w < x
  {
    CommonPrefixWhole(x, t.key);
    assert x[0] == t.key[0];
    HeadsAvoid(t.next, x);
    assert Leaves(t) == NodeLeaves(t) + Leaves(t.next);
    forall w | w in NodeLeaves(t)
      ensures x <= w
    {
      NodeLeavesHaveKey(t, w);
    }
  }

  /** The key runs past the head segment into its child list. */
  lemma RemoveLeavesDescend(t: Tree, x: Key, k: nat)
    requires Valid(t) && t.Node? && t.link.Node?
    requires k == CommonPrefixLength(x, t.key) && 0 < k == |t.key| < |x|
    requires forall w :: w in Leaves(t.next) ==> !(x <= w) && !(w < x)
    requires
      var l := Remove(t.link, x[k..]);
      && (forall u :: u in Leaves(l) ==> !(x[k..] <= u))
      && (forall u :: u in Leaves(t.link) && !(x[k..] <= u) ==> u in Leaves(l))
      && (forall u :: u in Leaves(l) && u !in Leaves(t.link) ==> u < x[k..])
    ensures forall w :: w in Leaves(Remove(t, x)) ==> !(x <= w)
    ensures forall w :: w in Leaves(t) && !(x <= w) ==> w in Leaves(Remove(t, x))
    ensures forall w :: w in Leaves(Remove(t, x)) && w !in Leaves(t) ==> w < x
  {
    var y := x[k..];
    assert x == t.key + y;
    var l := Remove(t.link, y);
    var s := t.(link := l);
    if l.Node? && l.next.Nil? {
      JoinLeaves(s);
    }
    assert Leaves(Remove(t, x)) == Leaves(s);
    assert Leaves(t) == Prepend(t.key, Leaves(t.link)) + Leaves(t.next);
    if l.Nil? {
      assert Leaves(s) == {t.key} + Leaves(t.next);
      PrefixEmptied(t.key, y, Leaves(t.link), Leaves(t.next));
    } else {
      assert Leaves(s) == Prepend(t.key, Leaves(l)) + Leaves(t.next);
      PrefixKept(t.key, y, Leaves(t.link), Leaves(l), Leaves(t.next));
    }
  }

  /** Set form of the descent step when something is left below. */
  lemma PrefixKept(key: Key, y: Key, before: set<Key>, after: set<Key>, others: set<Key>)
    requires forall w :: w in others ==> !(key + y <= w) && !(w < key + y)
    requires forall u :: u in after ==> !(y <= u)
    requires forall u :: u in before && !(y <= u) ==> u in after
    requires forall u :: u in after && u !in before ==> u < y
    ensures
      var x := key + y;
      var b := Prepend(key, before) + others;
      var a := Prepend(key, after) + others;
      && (forall w :: w in a ==> !(x <= w))
      && (forall w :: w in b && !(x <= w) ==> w in a)
      && (forall w :: w in a && w !in b ==> w < x)
  {
    var x := key + y;
    forall w | w in Prepend(key, after)
      ensures !(x <= w) && (w !in Prepend(key, before) ==> w < x)
    {
      var u :| u in after && w == key + u;
      PrefixCancel(key, y, u);
      PrefixCancel(key, u, y);
      if w !in Prepend(key, before) {
        assert u !in before;
      }
    }
    forall w | w in Prepend(key, before) && !(x <= w)
      ensures w in Prepend(key, after)
    {
      var u :| u in before && w == key + u;
      PrefixCancel(key, y, u);
    }
  }

  /** Set form of the descent step when nothing is left below: the node
      itself now spells a stored string, a proper prefix of the key. */
  lemma PrefixEmptied(key: Key, y: Key, before: set<Key>, others: set<Key>)
    requires 0 < |y|
    requires forall w :: w in others ==> !(key + y <= w) && !(w < key + y)
    requires forall u :: u in before ==> y <= u
    ensures
      var x := key + y;
      var b := Prepend(key, before) + others;
      var a := {key} + others;
      && (forall w :: w in a ==> !(x <= w))
      && (forall w :: w in b && !(x <= w) ==> w in a)
      && (forall w :: w in a && w !in b ==> w < x)
  {
    var x := key + y;
    assert key < x;
    forall w | w in Prepend(key, before)
      ensures x <= w
    {
      var u :| u in before && w == key + u;
      PrefixCancel(key, y, u);
    }
  }

  /** After removing a non-empty key from a valid tree, it cannot be found. */
  lemma RemoveThenFind(t: Tree, x: Key)
    requires Valid(t) && 0 < |x|
    ensures Find(Remove(t, x), x).Nil?
  {
    RemoveValid(t, x);
    RemoveLeaves(t, x);
    FindStored(Remove(t, x), x);
  }

  /** Removing a non-empty key that cannot be found deletes nothing: it only
      performs joins, which keep the stored strings. */
  lemma {:induction false} RemoveMissing(t: Tree, x: Key)
    requires 0 < |x| && Find(t, x).Nil?
    ensures Leaves(Remove(t, x)) == Leaves(t)
    decreases t
  {
    if t.Node? {
      var k := CommonPrefixLength(x, t.key);
      if k == 0 {
        RemoveMissing(t.next, x);
      } else if k == |t.key| && k != |x| {
        RemoveMissing(t.link, x[k..]);
        var l := Remove(t.link, x[k..]);
        var s := t.(link := l);
        if l.Node? && l.next.Nil? {
          JoinLeaves(s);
        }
        if t.link.Node? {
          NodeLeavesNonEmpty(t.link);
        }
        assert l.Nil? <==> t.link.Nil?;
        assert Leaves(s) == Leaves(t);
      }
    }
  }

  /** A key with a first character no sibling starts with passes the whole
      chain untouched. */
  lemma {:induction false} RemoveAbsentHead(t: Tree, x: Key)
    requires 0 < |x| && x[0] !in Heads(t)
    ensures Remove(t, x) == t
    decreases t
  {
    if t.Node? {
      if |t.key| > 0 {
        CommonPrefixZero(x, t.key);
      }
      RemoveAbsentHead(t.next, x);
    }
  }

  /** Removing the same non-empty key twice from a valid tree is the same as
      removing it once: the second walk neither deletes nor joins. */
  lemma {:induction false} RemoveIdempotent(t: Tree, x: Key)
    requires Valid(t) && 0 < |x|
    ensures Remove(Remove(t, x), x) == Remove(t, x)
    decreases t
  {
    if t.Node? {
      var k := CommonPrefixLength(x, t.key);
      if k == |x| {
        assert x[0] == t.key[0];
        RemoveAbsentHead(t.next, x);
      } else if k == 0 {
        RemoveIdempotent(t.next, x);
      } else if k == |t.key| {
        var y := x[k..];
        RemoveIdempotent(t.link, y);
        RemoveValid(t.link, y);
        var l := Remove(t.link, y);
        if l.Node? && l.next.Nil? {
          RemoveJoinedStable(t, x, k);
        }
      }
    }
  }

  /** The join step of `RemoveIdempotent`: if removing the rest of the key
      from the only remaining child changes nothing, removing the whole key
      from the joined node changes nothing either. */
  lemma RemoveJoinedStable(t: Tree, x: Key, k: nat)
    requires t.Node? && k == CommonPrefixLength(x, t.key) && 0 < k == |t.key| < |x|
    requires
      var l := Remove(t.link, x[k..]);
      && Valid(l) && l.Node? && l.next.Nil? && Remove(l, x[k..]) == l
    ensures
      var r := Join(t.(link := Remove(t.link, x[k..])));
      Remove(r, x) == r
  {
    var y := x[k..];
    var l := Remove(t.link, y);
    assert x[..k] == t.key;
    CommonPrefixAppend(x, t.key, l.key);
    RemoveStableNode(l, y);
    RemoveJoinedNode(t.key, l, t.next, x);
  }

  /** The joined node of `RemoveJoinedStable`, with the segments named: the
      key runs past `key` and is not used up in `l.key`, and whatever lies
      below neither changes nor triggers another join. */
  lemma RemoveJoinedNode(key: Key, l: Tree, next: Tree, x: Key)
    requires l.Node? && 0 < |key| < |x| && x[..|key|] == key
    requires
      var y := x[|key|..];
      var k := CommonPrefixLength(y, l.key);
      && CommonPrefixLength(x, key + l.key) == |key| + k
      && k != |y|
      && (k == |l.key| ==>
            Remove(l.link, y[k..]) == l.link && !(l.link.Node? && l.link.next.Nil?))
    ensures
      var r := Node(key + l.key, l.link, next);
      Remove(r, x) == r
  {
    var y := x[|key|..];
    var k := CommonPrefixLength(y, l.key);
    var r := Node(key + l.key, l.link, next);
    var kk := CommonPrefixLength(x, r.key);
    assert kk == |key| + k && kk != |x| && kk != 0;
    if kk == |r.key| {
      assert x[kk..] == y[k..];
      assert Remove(r.link, x[kk..]) == r.link;
    } else {
      assert kk < |r.key|;
    }
  }

  /** What it takes for removal of a non-empty key to leave a valid node
      without siblings unchanged: the key is not used up in its segment, and
      when it runs past the segment, removal below changes nothing and the
      child list is not a single node. */
  lemma RemoveStableNode(l: Tree, y: Key)
    requires Valid(l) && l.Node? && l.next.Nil? && 0 < |y| && Remove(l, y) == l
    ensures
      var k := CommonPrefixLength(y, l.key);
      && k != |y|
      && (k == |l.key| ==>
            Remove(l.link, y[k..]) == l.link && !(l.link.Node? && l.link.next.Nil?))
  {
    var k := CommonPrefixLength(y, l.key);
    if k == |l.key| && k != |y| {
      RemoveValid(l.link, y[k..]);
    }
  }

  /** The empty key: lookup never succeeds, while removal deletes the first
      node, because the used-up test runs before the no-overlap test. */
  lemma EmptyKey(t: Tree)
    ensures Find(t, []).Nil?
    ensures t.Node? ==> Remove(t, []) == t.next
  {
  }
}

=== FILE: restructure.dfy ===
/**
  Facts about the stored-string view of a tree, and the two restructuring
  steps of src/radix_tree.c: `node_split` and `node_join` are inverse to each
  other and change the representation only, never the stored strings.
 */
module Restructure {
  import opened CommonPrefix
  import opened RadixTree

  // ---------------------------------------------------------------------------
  // Stored strings
  // ---------------------------------------------------------------------------

  /** Every string spelled through the head node starts with its segment. */
  lemma NodeLeavesHaveKey(t: Tree, w: Key)
    requires t.Node? && w in NodeLeaves(t)
    ensures t.key <= w
  {
    if t.link.Node? {
      var u :| u in Leaves(t.link) && w == t.key + u;
    }
  }

  /** A node always spells at least one string. */
  lemma {:induction false} NodeLeavesNonEmpty(t: Tree)
    requires t.Node?
    ensures NodeLeaves(t) != {}
    decreases t
  {
    if t.link.Nil? {
      assert t.key in NodeLeaves(t);
    } else {
      NodeLeavesNonEmpty(t.link);
      var v :| v in NodeLeaves(t.link);
      assert t.key + v in NodeLeaves(t);
    }
  }

  /** In a valid tree every stored string is non-empty and starts with the
      first character of one of the siblings at the top. */
  lemma {:induction false} LeavesStartWithHead(t: Tree, w: Key)
    requires Valid(t) && w in Leaves(t)
    ensures |w| > 0 && w[0] in Heads(t)
    decreases t
  {
    if w in NodeLeaves(t) {
      NodeLeavesHaveKey(t, w);
      assert w[0] == t.key[0];
    } else {
      LeavesStartWithHead(t.next, w);
    }
  }

  /** A valid chain whose heads avoid the first character of `x` stores no
      string that `x` is a prefix of, and no non-empty proper prefix of `x`. */
  lemma HeadsAvoid(t: Tree, x: Key)
    requires Valid(t) && 0 < |x| && x[0] !in Heads(t)
    ensures forall w :: w in Leaves(t) ==> !(x <= w) && !(w < x)
  {
    forall w | w in Leaves(t)
      ensures !(x <= w) && !(w < x)
    {
      LeavesStartWithHead(t, w);
    }
  }

  /** A common first part does not change prefix order. */
  lemma PrefixCancel(key: Key, a: Key, b: Key)
    ensures key + a <= key + b <==> a <= b
    ensures key + a < key + b <==> a < b
  {
    if key + a <= key + b {
      assert a == (key + a)[|key|..] == (key + b)[|key|..|key + a|] == b[..|a|];
    }
    if a <= b {
      assert key + a == (key + b)[..|key + a|];
    }
  }

  /** Prepending distributes over union. */
  lemma PrependUnion(key: Key, a: set<Key>, b: set<Key>)
    ensures Prepend(key, a + b) == Prepend(key, a) + Prepend(key, b)
  {
  }

  /** Prepending twice is prepending the concatenation. */
  lemma PrependPrepend(a: Key, b: Key, s: set<Key>)
    ensures Prepend(a, Prepend(b, s)) == Prepend(a + b, s)
  {
    forall w | w in Prepend(a + b, s)
      ensures w in Prepend(a, Prepend(b, s))
    {
      var u :| u in s && w == (a + b) + u;
      assert b + u in Prepend(b, s);
      assert w == a + (b + u);
    }
    forall w | w in Prepend(a, Prepend(b, s))
      ensures w in Prepend(a + b, s)
    {
      var v :| v in Prepend(b, s) && w == a + v;
      var u :| u in s && v == b + u;
      assert w == (a + b) + u;
    }
  }

  // ---------------------------------------------------------------------------
  // Split and join
  // ---------------------------------------------------------------------------

  /** Joining right after a split restores the node. */
  lemma JoinSplit(t: Tree, k: nat)
    requires t.Node? && k <= |t.key|
    ensures Join(Split(t, k)) == t
  {
    assert t.key[..k] + t.key[k..] == t.key;
  }

  /** Splitting a joined node at the old segment length restores the node,
      provided the child had no sibling (the only case in which `node_remove`
      joins). */
  lemma SplitJoin(t: Tree)
    requires t.Node? && t.link.Node? && t.link.next.Nil?
    ensures Split(Join(t), |t.key|) == t
  {
    var j := Join(t);
    assert j.key[..|t.key|] == t.key;
    assert j.key[|t.key|..] == t.link.key;
  }

  /** A split stores the same strings as the node it came from. */
  lemma SplitLeaves(t: Tree, k: nat)
    requires t.Node? && k <= |t.key|
    ensures Leaves(Split(t, k)) == Leaves(t)
  {
    var s := Split(t, k);
    var p := s.link;
    assert t.key[..k] + t.key[k..] == t.key;
    if t.link.Nil? {
      assert Leaves(p) == {t.key[k..]};
      assert Prepend(t.key[..k], {t.key[k..]}) == {t.key};
      assert NodeLeaves(s) == {t.key};
    } else {
      assert Leaves(p) == Prepend(t.key[k..], Leaves(t.link));
      PrependPrepend(t.key[..k], t.key[k..], Leaves(t.link));
      assert NodeLeaves(s) == NodeLeaves(t);
    }
  }

  /** A join of a node whose child has no sibling stores the same strings. */
  lemma JoinLeaves(t: Tree)
    requires t.Node? && t.link.Node? && t.link.next.Nil?
    ensures Leaves(Join(t)) == Leaves(t)
  {
    SplitJoin(t);
    SplitLeaves(Join(t), |t.key|);
  }

  /** A split strictly inside a segment keeps the tree valid. */
  lemma SplitValid(t: Tree, k: nat)
    requires Valid(t) && t.Node? && 0 < k < |t.key|
    ensures Valid(Split(t, k))
  {
    assert Split(t, k).key[0] == t.key[0];
  }

  /** A join keeps the tree valid. */
  lemma JoinValid(t: Tree)
    requires Valid(t) && t.Node? && t.link.Node?
    ensures Valid(Join(t))
  {
    assert Join(t).key[0] == t.key[0];
  }
}
